=== FILE: README.md ===
# Kaslod Crew Messenger bot — a Dafny model

`server.js` is a Facebook Messenger webhook for the Kaslod Crew skateboarding
crew. Each text message gets a typing indicator and then one reply with five
quick-reply chips. The reply is one of three things:

- a fixed welcome, when the message is a bare greeting;
- the text from a Google Gemini completion;
- if that call throws, a canned answer picked by keyword from a small FAQ
  table.

Button clicks (postbacks) are answered from a fixed switch and never reach
the AI. The GET side of `/webhook` carries out the platform's subscription
handshake.

The model follows the program's structure:

| module | file | what it holds |
|---|---|---|
| `Wrappers` | wrappers.dfy | `Option` and `Result` |
| `Text` | text.dfy | `toLowerCase`, `includes`, `trim`, and how a number prints in a template literal |
| `Faq` | faq.dfy | the `faqs` table and `getFallbackResponse` |
| `Outbound` | outbound.dfy | the Send API messages, the JSON they become, and a decoder proving the encoding loses nothing |
| `Gemini` | gemini.dfy | `getGeminiResponse`: key guard, prompt, request, text extraction, error messages |
| `Router` | router.dfy | `handleMessage`, first with the AI outcome as an input, then with the AI call inside it |
| `Postback` | postback.dfy | `handlePostback` |
| `Webhook` | webhook.dfy | the two `/webhook` routes |

Everything the program reads from outside becomes a parameter:

- whether `GEMINI_API_KEY` is set to a non-empty value (`Gemini.KeyPresent`);
- the value of `VERIFY_TOKEN`;
- the query string and POST body;
- what the Gemini endpoint answered (`Gemini.Upstream`).

Everything it does to the outside becomes a value:

- the messages it posts (`Outbound.Message`);
- the requests it sends to the model (`Gemini.Request`);
- the HTTP reply of each route.

`Router.Effect` records the sends and model calls of one message in the order
they happen.

Strings are sequences of Unicode scalar values. An emoji outside the Basic
Multilingual Plane, such as 🛹 (U+1F6F9), is one `char` here but two UTF-16
code units in JavaScript; ⏰ (U+23F0) is one of each. Only lengths are affected. Contents,
equality and substring search are not, since every search pattern is ASCII.
Several contracts mention lengths, but only `Gemini.Prompt` measures a string
whose scalar count and UTF-16 count can differ (the business context holds 🛹). Its count is in scalars.

`server.js` uses CRLF line endings. A template literal turns each CRLF into
a single LF, so `Gemini.BusinessContext` uses `\n`. The two trailing spaces
after "Philippines" on the location line are kept.

`server.js` has no language detection, no per-language FAQ or knowledge
tables, and no retry of the AI call. The model has none of them either.

## Model

| member | source | states |
|---|---|---|
| Webhook.VerifyToken | server.js:11 | An unset or empty `VERIFY_TOKEN` falls back to the built-in token. A non-empty one is used as given. |
| Webhook.Verify | server.js:110-124 | The challenge is echoed exactly when the mode is "subscribe" and the token matches. The request gets 403 exactly when the mode is missing or empty, or the token does not match. It gets no response exactly when the token matches and the mode is some other non-empty string. |
| Webhook.HandshakeScenarios | server.js:115-123 | With the configured token, a "subscribe" request returns its challenge. A wrong or missing token gets 403 whatever the mode. |
| Webhook.Classify | server.js:133-137 | An event with non-empty message text goes to the message handler, even if it also carries a postback. Otherwise a postback goes to the postback handler with its payload, which may be absent. Otherwise the event is dropped. Each of these holds in both directions. |
| Webhook.DispatchEvents | server.js:131-138 | Handling a list of events hands on at most one dispatch per event. |
| Webhook.DroppedEventAddsNothing | server.js:132-137 | An event that is neither a text message nor a postback can be removed from anywhere in a delivery without changing what is handed on. |
| Webhook.DeliverEntry | server.js:132-138 | Walking one entry's `messaging` list hands on exactly the dispatches of its events, in order. |
| Webhook.Deliver | server.js:127-144 | A `page` delivery is answered 200 "EVENT_RECEIVED" after handing on every entry's events, entry by entry and in order. Any other `object` is answered 404 and handles nothing. |
| Webhook.Handle | server.js:133-136 | A postback dispatch sends exactly the postback handler's one message. A message dispatch starts with a typing indicator, sends exactly the messages the router decides from the AI call's outcome for that text, and calls the model at most once. |
| Webhook.PostbackNeverConsults | server.js:242-256 | Handling a postback never calls the model. |
| Faq.FirstHit | server.js:232-236 | The result is the first table position whose key occurs in the text. None is returned only when no key occurs. |
| Faq.FirstHitUnique | server.js:232-236 | At most one position can be the first hit. |
| Faq.Fallback | server.js:225-239 | Text containing "thank" gets the thanks reply. Otherwise the answer of the first FAQ key found is returned, in table order. If no key is found, the default reply is returned. |
| Faq.FallbackIsCanned | server.js:225-239 | The fallback only ever returns the thanks reply, one of the six FAQ answers, or the default reply. |
| Text.ToLower | server.js:148 | Same length, every ASCII capital lowered, every other character unchanged. The result has no capitals. |
| Text.ToLowerIdempotent | server.js:148 | Lower-casing twice is the same as lower-casing once. |
| Text.ContainsIffOccurs | server.js:227-233 | The substring test succeeds exactly when the pattern occurs at some index of the text. |
| Text.ContainsAfterLower | server.js:148-166 | A lower-case keyword present in the raw message is still found after lower-casing. |
| Text.Trim | server.js:203 | The result has no JavaScript whitespace at either end. It is the input with an all-whitespace prefix and suffix removed. |
| Text.TrimIdempotent | server.js:203 | Trimming twice is the same as trimming once. |
| Text.TrimOfSpaces | server.js:203 | An all-whitespace string trims to the empty string. |
| Text.Decimal | server.js:220 | A status code prints as a non-empty string of digits with no leading zero. |
| Text.DecimalRoundTrip | server.js:220 | Reading the printed digits gives back the number. |
| Text.DecimalInjective | server.js:220 | Distinct statuses print differently. |
| Gemini.Prompt | server.js:178 | The prompt starts with the business context and ends with the assistant cue. Its length is the sum of its parts. |
| Gemini.UserMessageOf | server.js:178 | Whatever user message is read back from a prompt rebuilds that same prompt. |
| Gemini.PromptRoundTrip | server.js:178 | The user's message can always be recovered from the prompt built for it. |
| Gemini.PromptInjective | server.js:178 | Different messages give different prompts. |
| Gemini.KeyPresent | server.js:173 | The key counts as present exactly when `GEMINI_API_KEY` (read at server.js:13) is set to a non-empty string. An empty string counts as missing. |
| Gemini.EmptyKeySendsNothing | server.js:173-176 | A request to the model goes out exactly when the variable holds a non-empty key. An unset or empty variable fails with "Gemini API key not configured", whatever the message. |
| Gemini.BuildRequest | server.js:180-190 | The request carries the prompt for this message, 150 output tokens and top-k 40. |
| Gemini.FirstText | server.js:202 | Any extracted text is non-empty. It is the text of the first part of the first candidate of a body that has both. |
| Gemini.FirstTextIffWellFormed | server.js:202-207 | Text is extracted exactly when the body has a first candidate with a first part holding non-empty text. A missing body, candidate list, content, part list or text, or an empty text, extracts nothing. |
| Gemini.FirstTextOfWellFormed | server.js:202-203 | The text of the first part of the first candidate is read. Later parts and candidates are ignored. Empty text counts as missing. |
| Gemini.CaughtError | server.js:216-220 | Status 404 gives the model-not-found message. Any other status gives a message starting "Gemini API error: ". With no status, or status 0, that message carries the original error message. |
| Gemini.CaughtErrorShowsStatus | server.js:220 | For a non-zero status other than 404, the digits after the prefix read back as that status. |
| Gemini.ModelNotFoundIsDistinct | server.js:217-220 | Only status 404 produces the model-not-found message. |
| Gemini.Respond | server.js:172-222 | With no key: no request is sent, and it fails with "Gemini API key not configured". With a key: exactly one request, the one `Gemini.BuildRequest` makes for the user's message. It succeeds exactly when the endpoint responded with first-part text, and the reply is that text trimmed. A response without such text fails with "Gemini API error: Invalid Gemini response format". A rejected call fails with the message the catch block builds. |
| Gemini.RespondReturnsTrimmedText | server.js:202-203 | A well-formed answer is returned trimmed, and nothing else changes. |
| Gemini.WhitespaceReplyBecomesEmpty | server.js:202-203 | A first part of only whitespace passes the emptiness guard and yields an empty reply. |
| Router.IsGreeting | server.js:154 | The lower-cased message is a greeting exactly when it is, in full, one of the eight words hi, hello, hey, greetings, sup, yo, start, menu. A greeting is a single lower-case word of 2 to 9 letters with no space. |
| Router.GreetingIsWholeMessage | server.js:154 | The pattern is anchored at both ends: a greeting with anything added before or after it is not a greeting. |
| Router.Route | server.js:147-169 | Two messages, typing indicator first. The second carries the five chips and one of these texts: the welcome for a greeting; otherwise the AI text on success; otherwise the fallback for the lower-cased message. |
| Router.GreetingIgnoresAi | server.js:154-157 | A greeting's reply does not depend on the AI outcome. |
| Router.RouteIgnoresCase | server.js:148-168 | The reply depends on the message only through its lower-cased form, for any AI outcome. "HELLO" and "Hello" are greetings. |
| Router.AiErrorNeverShown | server.js:163-168 | When the AI call fails, the reply does not depend on the error. It is always a canned fallback answer. |
| Router.NoGreetingThanks | server.js:154 | No text containing "thank" is a greeting. |
| Router.ThanksBeatsFaqs | server.js:163-168 | After an AI failure, a message whose lower-cased form contains "thank" gets the thanks reply, whatever FAQ keywords it also contains. |
| Router.ShoutedThanks | server.js:166-167 | After an AI failure, "THANK YOU" gets the thanks reply. |
| Router.HandleMessage | server.js:147-169 | The typing indicator is sent first and a quick reply last. A greeting sends only the welcome. A non-greeting calls the model once when a non-empty key is set, with the request `Gemini.BuildRequest` makes for this exact message. Without a key it answers from the fallback. |
| Router.HandleMessageFollowsRoute | server.js:159-168 | The messages sent are exactly what `Route` decides from the outcome of `getGeminiResponse`. |
| Router.ConsultsAtMostOnce | server.js:153-161 | The model is asked at most once per message. It is asked exactly when a non-empty key is set and the message is not a greeting. |
| Router.HoursWithoutAi | server.js:173-176 | Without a key, "hours" is answered with the hours FAQ. |
| Router.ChipTitlesFindTheirFaq | server.js:282-307 | Each chip title, lower-cased, contains its own FAQ key and no earlier key or "thank". No chip title is a greeting, so sending one back as text when the AI is down gets that FAQ's answer. |
| Faq.LabelMissesEarlierKeys | server.js:31-38 | An emoji, a space and one of the first five FAQ keys contains neither "thank" nor any key listed before it. |
| Postback.Parse | server.js:243-255 | Only the three exact codes are recognised, case-sensitively. Anything else, including a missing payload, is unrecognised. |
| Postback.ParseRoundTrip | server.js:244-250 | Each named code parses back to itself. |
| Postback.ParseIsCaseSensitive | server.js:243-250 | Lower-case or mixed-case spellings are not recognised. |
| Postback.HandlePostback | server.js:242-256 | Exactly one message goes to the sender. GET_STARTED, and only it, sends the button template. SHOW_FAQS sends the FAQ-list text. CONTACT_US sends the contact FAQ answer. Anything else sends "How can I help you today?". All but the template carry the five chips. |
| Postback.MenuButtonsRecognised | server.js:324-334 | Every postback button on the welcome card carries a payload the handler recognises. |
| Postback.ContactMatchesFallback | server.js:250-252 | The Contact Us button gives the same text the keyword fallback gives for "contact". |
| Outbound.TypingIndicator | server.js:259-265 | A sender action of "typing_on" or "typing_off" for the recipient. |
| Outbound.TypingIndicatorWire | server.js:260-263 | On the wire this is the recipient id and `sender_action`, with no `message` object. |
| Outbound.TextMessage | server.js:268-274 | Plain text for the recipient, with no chips. |
| Outbound.QuickReplyMessage | server.js:277-312 | The text for the recipient, with the five standard chips. |
| Outbound.QuickRepliesFixed | server.js:282-308 | The chip payloads are HOURS, LOCATION, CONTACT, SERVICES and PRICING, in that order, each encoded with `content_type` "text". |
| Outbound.ButtonTemplateMessage | server.js:315-346 | The welcome card text with its View FAQs, Contact Us and Facebook Page buttons. |
| Outbound.ReplyRoundTrip | server.js:283-287 | One chip's JSON decodes back to the chip. |
| Outbound.RepliesRoundTrip | server.js:282-308 | A list of chips decodes back to the same list. |
| Outbound.ButtonRoundTrip | server.js:325-339 | A postback or web_url button's JSON decodes back to the button. |
| Outbound.ButtonsRoundTrip | server.js:324-340 | A list of buttons decodes back to the same list. |
| Outbound.TemplateRoundTrip | server.js:318-343 | The button-template `message` object decodes back to its text and buttons. |
| Outbound.TextBodyRoundTrip | server.js:270-272 | A text `message` object, with or without quick replies, decodes back to it. |
| Outbound.EncodeRoundTrip | server.js:259-346 | Every message the bot builds decodes back to itself. No two messages share a JSON form. |

## Left out

- HTTP plumbing is not modelled: Express, body parsing, the `/`, `/privacy` and `/terms` pages, and `listen`. None of it decides a reply.
- `callSendAPI` is not modelled. Its network post and the swallowed, logged send errors do not change what the bot decides to send. The model stops at the message values.
- The network call to Gemini is not modelled, including its URL, headers and the 10-second timeout. The endpoint's answer is an input (`Gemini.Upstream`). A timeout is a rejection with no status.
- Asynchrony is not modelled. The POST handler does not await `handleMessage`, so effects from different events can interleave, and the 200 reply can go out before they finish. The model gives each handler's effects in order and the dispatches in event order. It does not model interleaving across events.
- Console logging is not modelled. It has no effect on behaviour.
- Environment reading is replaced by parameters. `GEMINI_API_KEY` becomes a flag that holds exactly when the variable is set to a non-empty value, as `Gemini.KeyPresent` states, and `VERIFY_TOKEN` a value. `PAGE_ACCESS_TOKEN` and `PORT` are not used by any decision.
- Gemini.BuildRequest: leaves out the floating-point `temperature` (0.7) and `topP` (0.9) settings.
- Text.ToLower: lowers only the ASCII capitals, not the full Unicode case mapping of `toLowerCase`. This is observable. JavaScript lowers U+212A KELVIN SIGN to `k`, so "THAN\u212A" gets the thanks reply in `server.js` but not in the model. Other non-ASCII capitals are also lowered by `toLowerCase` but left unchanged here.
- Webhook.Verify: treats each query value as a single optional string. A repeated query parameter, which Express turns into an array, is not modelled.
- Webhook.Deliver: assumes a `page` body has an `entry` array, every entry a `messaging` list and every event a sender id. A delivery missing any of them makes the real handler throw before it replies (`body.entry.forEach` at server.js:131 for a missing `entry`), and this is not modelled.
- Gemini.Respond: assumes the first part's `text` is a string when present. A non-string truthy value would make `.trim` throw a TypeError inside the `try`, and this is not modelled.

=== FILE: faq.dfy ===
/** The keyword fallback used when the AI reply is unavailable
    (server.js `faqs` and `getFallbackResponse`). */
module Faq {
  import opened Wrappers
  import opened Text

  /** One FAQ entry: a topic keyword and its canned answer. */
  datatype Entry = Entry(key: string, answer: string)

  /** The FAQ table, in declaration order; `Object.entries` walks the
      object's string keys in this order. */
  const Faqs: seq<Entry> := [
    Entry("hours", "\U{23F0} We're usually around from 8AM - 5PM! Catch us then."),
    Entry("location", "\U{1F4CD} We roll around Maasin City, Southern Leyte, Philippines!"),
    Entry("contact", "\U{1F4E7} Hit us up at warionramos@gmail.com or message us here!"),
    Entry("services", "\U{1F6F9} Kaslod Crew offers: Custom rides, crew meetups, and sick skating sessions!"),
    Entry("pricing", "\U{1F4B0} Wanna join the crew? Message us for details!"),
    Entry("help", "I can answer questions about: hours, location, contact, services, pricing, crew. Just ask me anything!")
  ]

  const HoursIndex := 0
  const ContactIndex := 2

  const ThanksKeyword := "thank"
  const ThanksReply := "You're very welcome! \U{1F64C} Anything else I can help with?"
  const DefaultReply := "I'm here to help! Ask me about our hours, location, services, or anything about Kaslod Crew! \U{1F6F9}"

  /** `i` is the first entry of `table` whose key occurs in `text`. */
  predicate IsFirstHit(text: string, table: seq<Entry>, i: int) {
    && 0 <= i < |table|
    && Contains(text, table[i].key)
    && forall j :: 0 <= j < i ==> !Contains(text, table[j].key)
  }

  /** No key of `table` occurs in `text`. */
  predicate NoHit(text: string, table: seq<Entry>) {
    forall j :: 0 <= j < |table| ==> !Contains(text, table[j].key)
  }

  /** The position of the first entry whose key is a substring of `text`,
      scanning the table front to back. */
  function FirstHit(text: string, table: seq<Entry>): (r: Option<nat>)
    ensures r.Some? ==> IsFirstHit(text, table, r.value)
    ensures r.None? ==> NoHit(text, table)
  {
    if |table| == 0 then None
    else if Contains(text, table[0].key) then Some(0)
    else match FirstHit(text, table[1..])
      case None => None
      case Some(k) => Some(k + 1)
  }

  /** The first hit is unique: no other position satisfies the definition. */
  lemma FirstHitUnique(text: string, table: seq<Entry>, i: int, k: int)
    requires IsFirstHit(text, table, i) && IsFirstHit(text, table, k)
    ensures i == k
  {
  }

  /** `getFallbackResponse`, applied to the already lower-cased message:
      thanks first, then the first FAQ key found, then the default. */
  function Fallback(text: string): (r: string)
    ensures Contains(text, ThanksKeyword) ==> r == ThanksReply
    ensures !Contains(text, ThanksKeyword) ==>
              forall i :: IsFirstHit(text, Faqs, i) ==> r == Faqs[i].answer
    ensures !Contains(text, ThanksKeyword) && NoHit(text, Faqs) ==> r == DefaultReply
  {
    if Contains(text, ThanksKeyword) then ThanksReply
    else match FirstHit(text, Faqs)
      case Some(i) => Faqs[i].answer
      case None => DefaultReply
  }

  /** Every reply the fallback can give. */
  ghost predicate IsCannedReply(r: string) {
    r == ThanksReply || r == DefaultReply || exists i :: 0 <= i < |Faqs| && Faqs[i].answer == r
  }

  /** The fallback is total and only ever answers with canned text. */
  lemma FallbackIsCanned(text: string)
    ensures IsCannedReply(Fallback(text))
  {
    if !Contains(text, ThanksKeyword) {
      var h := FirstHit(text, Faqs);
      if h.Some? {
        assert Faqs[h.value].answer == Fallback(text);
      }
    }
  }

  /** A label made of a non-letter, a space and one of the first five FAQ
      keys names neither "thank" nor any key listed before its own: each of
      those has a letter the label lacks (one lemma per key below, so that each proof stays small). */
  lemma LabelMissesEarlierKeys(c: char, i: nat)
    requires i < 5 && c > 'z'
    ensures !Contains([c, ' '] + Faqs[i].key, ThanksKeyword)
    ensures forall j :: 0 <= j < i ==> !Contains([c, ' '] + Faqs[i].key, Faqs[j].key)
  {
    if i == 0 { HoursLabelMisses(c); }
    else if i == 1 { LocationLabelMisses(c); }
    else if i == 2 { ContactLabelMisses(c); }
    else if i == 3 { ServicesLabelMisses(c); }
    else { PricingLabelMisses(c); }
  }

  lemma HoursLabelMisses(c: char)
    requires c > 'z'
    ensures !Contains([c, ' '] + Faqs[0].key, ThanksKeyword)
  {
    LabelMisses(c, Faqs[0].key, ThanksKeyword, 0);
  }

  lemma LocationLabelMisses(c: char)
    requires c > 'z'
    ensures !Contains([c, ' '] + Faqs[1].key, ThanksKeyword)
    ensures !Contains([c, ' '] + Faqs[1].key, Faqs[0].key)
  {
    LabelMisses(c, Faqs[1].key, ThanksKeyword, 1);
    LabelMisses(c, Faqs[1].key, Faqs[0].key, 0);
  }

  lemma ContactLabelMisses(c: char)
    requires c > 'z'
    ensures !Contains([c, ' '] + Faqs[2].key, ThanksKeyword)
    ensures !Contains([c, ' '] + Faqs[2].key, Faqs[0].key)
    ensures !Contains([c, ' '] + Faqs[2].key, Faqs[1].key)
  {
    LabelMisses(c, Faqs[2].key, ThanksKeyword, 1);
    LabelMisses(c, Faqs[2].key, Faqs[0].key, 0);
    LabelMisses(c, Faqs[2].key, Faqs[1].key, 0);
  }

  lemma ServicesLabelMisses(c: char)
    requires c > 'z'
    ensures !Contains([c, ' '] + Faqs[3].key, ThanksKeyword)
    ensures !Contains([c, ' '] + Faqs[3].key, Faqs[0].key)
    ensures !Contains([c, ' '] + Faqs[3].key, Faqs[1].key)
    ensures !Contains([c, ' '] + Faqs[3].key, Faqs[2].key)
  {
    LabelMisses(c, Faqs[3].key, ThanksKeyword, 0);
    LabelMisses(c, Faqs[3].key, Faqs[0].key, 0);
    LabelMisses(c, Faqs[3].key, Faqs[1].key, 0);
    LabelMisses(c, Faqs[3].key, Faqs[2].key, 1);
  }

  lemma PricingLabelMisses(c: char)
    requires c > 'z'
    ensures !Contains([c, ' '] + Faqs[4].key, ThanksKeyword)
    ensures !Contains([c, ' '] + Faqs[4].key, Faqs[0].key)
    ensures !Contains([c, ' '] + Faqs[4].key, Faqs[1].key)
    ensures !Contains([c, ' '] + Faqs[4].key, Faqs[2].key)
    ensures !Contains([c, ' '] + Faqs[4].key, Faqs[3].key)
  {
    LabelMisses(c, Faqs[4].key, ThanksKeyword, 0);
    LabelMisses(c, Faqs[4].key, Faqs[0].key, 0);
    LabelMisses(c, Faqs[4].key, Faqs[1].key, 0);
    LabelMisses(c, Faqs[4].key, Faqs[2].key, 1);
    LabelMisses(c, Faqs[4].key, Faqs[3].key, 0);
  }

  /** An emoji, a space and a key cannot contain a word one of whose
      letters is none of those. */
  lemma LabelMisses(c: char, key: string, p: string, k: nat)
    requires k < |p| && p[k] != c && p[k] != ' ' && p[k] !in key
    ensures !Contains([c, ' '] + key, p)
  {
    MissingCharOf([c, ' '] + key, p, k);
  }
}

=== FILE: gemini.dfy ===
/** The AI reply path (server.js `getGeminiResponse`): the key guard, the
    prompt, the request, reading the first candidate's text, and the error
    messages a failed call ends with. The HTTP exchange itself is an input:
    `Upstream` is what the POST to the model endpoint came back with. */
module Gemini {
  import opened Wrappers
  import opened Text

  /** The fixed business description every prompt starts with. The source
      file has CRLF line endings, but a template literal turns each line
      break into a single LF. */
  const BusinessContext: string :=
    "You are a friendly assistant for Kaslod Crew, a skateboarding crew in Roxas City, Capiz, Philippines.\n"
    + "\n"
    + "Our Info:\n"
    + "- Hours: 8AM - 5PM\n"
    + "- Location: Roxas City, Capiz, Western Visayas, Philippines  \n"
    + "- Services: Custom rides, crew meetups, skating sessions\n"
    + "- Contact: warionramos@gmail.com, Facebook: facebook.com/kaslodcrew\n"
    + "\n"
    + "Keep responses friendly, concise (2-3 sentences), use emojis occasionally \U{1F6F9}. "
    + "If you don't know something specific, suggest they contact us directly."

  const UserTag := "\n\nUser: "
  const AssistantTag := "\n\nAssistant:"

  const MaxOutputTokens: nat := 150
  const TopK: nat := 40

  const KeyMissingError := "Gemini API key not configured"
  const InvalidFormatError := "Invalid Gemini response format"
  /** One string in the source; kept as two literals so that proofs can
      read its first words without unfolding the whole text. */
  const ModelNotFoundError := "Gemini model not found" + " - please check model availability in your region"
  const ApiErrorPrefix := "Gemini API error: "

  // ---------------------------------------------------------------------------
  // Prompt and request
  // ---------------------------------------------------------------------------

  /** The prompt: business context, the user's words, and the cue for the
      assistant's turn. */
  function Prompt(userMessage: string): (p: string)
    ensures |p| == |BusinessContext| + |UserTag| + |userMessage| + |AssistantTag|
    ensures p[..|BusinessContext|] == BusinessContext
    ensures p[|p| - |AssistantTag|..] == AssistantTag
  {
    BusinessContext + UserTag + userMessage + AssistantTag
  }

  /** Recovers the user's message from a prompt, if it is one. */
  function UserMessageOf(p: string): (r: Option<string>)
    ensures r.Some? ==> Prompt(r.value) == p
  {
    var head := BusinessContext + UserTag;
    if |p| >= |head| + |AssistantTag| && p[..|head|] == head && p[|p| - |AssistantTag|..] == AssistantTag then
      var m := p[|head|..|p| - |AssistantTag|];
      assert p == head + m + AssistantTag;
      Some(m)
    else None
  }

  /** The user's message can be read back out of the prompt, so two
      different messages never produce the same prompt. */
  lemma PromptRoundTrip(userMessage: string)
    ensures UserMessageOf(Prompt(userMessage)) == Some(userMessage)
  {
    var head := BusinessContext + UserTag;
    var p := Prompt(userMessage);
    assert p == head + userMessage + AssistantTag;
    assert p[..|head|] == head;
    assert p[|head|..|p| - |AssistantTag|] == userMessage;
  }

  lemma PromptInjective(m1: string, m2: string)
    requires Prompt(m1) == Prompt(m2)
    ensures m1 == m2
  {
    PromptRoundTrip(m1);
    PromptRoundTrip(m2);
  }

  /** The request body sent to the model: one content with one text part
      holding the prompt, and the generation limits. The sampling
      temperature and nucleus threshold are not modelled. */
  datatype Request = Request(prompt: string, maxOutputTokens: nat, topK: nat)

  function BuildRequest(userMessage: string): (r: Request)
    ensures UserMessageOf(r.prompt) == Some(userMessage)
    ensures r.maxOutputTokens == MaxOutputTokens && r.topK == TopK
  {
    PromptRoundTrip(userMessage);
    Request(Prompt(userMessage), MaxOutputTokens, TopK)
  }

  // ---------------------------------------------------------------------------
  // Response shape
  // ---------------------------------------------------------------------------

  /** The parts of a response body the bot reads; every level may be
      missing, as the optional chaining in the source allows. */
  datatype Part = Part(text: Option<string>)
  datatype Content = Content(parts: Option<seq<Part>>)
  datatype Candidate = Candidate(content: Option<Content>)
  datatype ResponseBody = ResponseBody(candidates: Option<seq<Candidate>>)

  /** What the POST came back with: a 2xx response with its body (absent
      when it is not an object), or a rejection carrying the HTTP status
      (absent when no response arrived, as on a timeout) and the error's
      message. */
  datatype Upstream =
    | Responded(data: Option<ResponseBody>)
    | Rejected(status: Option<nat>, message: string)

  /** `data.candidates[0].content.parts[0].text` when every step exists and
      the text is not empty (an empty string is falsy). */
  function FirstText(data: Option<ResponseBody>): (r: Option<string>)
    ensures r.Some? ==> r.value != ""
    ensures r.Some? ==> exists mp, mc :: data == Some(WellFormed(r.value, mp, mc))
  {
    if data.None? || data.value.candidates.None? || |data.value.candidates.value| == 0 then None
    else
      var cs := data.value.candidates.value;
      var c := cs[0];
      if c.content.None? || c.content.value.parts.None? || |c.content.value.parts.value| == 0 then None
      else
        var ps := c.content.value.parts.value;
        var part := ps[0];
        if part.text.None? || part.text.value == "" then None
        else
          assert ps == [Part(part.text)] + ps[1..];
          assert cs == [Candidate(Some(Content(Some(ps))))] + cs[1..];
          assert data == Some(WellFormed(part.text.value, ps[1..], cs[1..]));
          part.text
  }

  /** A body built the way the model answers: its first candidate's first
      part carries `t`; further candidates and parts do not matter. */
  function WellFormed(t: string, moreParts: seq<Part>, moreCandidates: seq<Candidate>): ResponseBody {
    ResponseBody(Some([Candidate(Some(Content(Some([Part(Some(t))] + moreParts))))] + moreCandidates))
  }

  /** Text is found exactly in a body of the well-formed shape with a
      non-empty first part; a missing body, no candidates, no content, no
      parts or an empty text all give nothing. */
  lemma FirstTextIffWellFormed(data: Option<ResponseBody>)
    ensures FirstText(data).Some? <==>
              exists t, mp, mc :: t != "" && data == Some(WellFormed(t, mp, mc))
  {
    if exists t, mp, mc :: t != "" && data == Some(WellFormed(t, mp, mc)) {
      var t, mp, mc :| t != "" && data == Some(WellFormed(t, mp, mc));
      FirstTextOfWellFormed(t, mp, mc);
    }
  }

  lemma FirstTextOfWellFormed(t: string, moreParts: seq<Part>, moreCandidates: seq<Candidate>)
    ensures FirstText(Some(WellFormed(t, moreParts, moreCandidates))) == if t == "" then None else Some(t)
  {
  }

  // ---------------------------------------------------------------------------
  // Errors
  // ---------------------------------------------------------------------------

  /** The message the `catch` block rethrows: 404 names the missing model;
      any other status is printed, and without a (truthy) status the
      original message is kept. */
  function CaughtError(status: Option<nat>, message: string): (e: string)
    ensures status == Some(404) ==> e == ModelNotFoundError
    ensures status != Some(404) ==> |e| >= |ApiErrorPrefix| && e[..|ApiErrorPrefix|] == ApiErrorPrefix
    ensures status.None? || status == Some(0) ==> e == ApiErrorPrefix + message
  {
    if status == Some(404) then ModelNotFoundError
    else ApiErrorPrefix + (if status.Some? && status.value != 0 then Decimal(status.value) else message)
  }

  /** The status code can be read back from the rethrown message. */
  lemma CaughtErrorShowsStatus(s: nat, message: string)
    requires s != 404 && s != 0
    ensures var e := CaughtError(Some(s), message);
            var digits := e[|ApiErrorPrefix|..];
            && (forall i :: 0 <= i < |digits| ==> IsDigit(digits[i]))
            && DecimalValue(digits) == s
  {
    var e := CaughtError(Some(s), message);
    assert e[|ApiErrorPrefix|..] == Decimal(s);
    DecimalRoundTrip(s);
  }

  /** The 404 message is never confused with the generic one. */
  lemma ModelNotFoundIsDistinct(status: Option<nat>, message: string)
    requires status != Some(404)
    ensures CaughtError(status, message) != ModelNotFoundError
  {
    var e := CaughtError(status, message);
    assert e[7] == ApiErrorPrefix[7] == 'A';
    assert ModelNotFoundError[7] == 'm';
  }

  // ---------------------------------------------------------------------------
  // The call
  // ---------------------------------------------------------------------------

  /** One invocation: the requests it sent (none or one) and its outcome,
      a reply text or the message of the error it throws. */
  datatype Call = Call(requests: seq<Request>, result: Result<string, string>)

  /** The guard `!GEMINI_API_KEY`: the key counts as present only when the
      variable is set to a non-empty value; an empty string is as good as
      unset. */
  function KeyPresent(env: Option<string>): (b: bool)
    ensures b <==> env.Some? && |env.value| > 0
  {
    env.Some? && env.value != ""
  }

  /** `getGeminiResponse(userMessage)` with the key guard's outcome
      (`KeyPresent` of the environment variable) and the endpoint's answer
      as inputs. */
  function Respond(keyPresent: bool, userMessage: string, upstream: Upstream): (c: Call)
    ensures !keyPresent ==> c.requests == [] && c.result == Failure(KeyMissingError)
    ensures keyPresent ==> |c.requests| == 1 && UserMessageOf(c.requests[0].prompt) == Some(userMessage)
    ensures keyPresent ==> c.requests == [BuildRequest(userMessage)]
    ensures c.result.Success? <==> keyPresent && upstream.Responded? && FirstText(upstream.data).Some?
    ensures c.result.Success? ==>
              (IsTrimmed(c.result.value) && exists lo :: TrimmedAt(FirstText(upstream.data).value, c.result.value, lo))
    ensures keyPresent && upstream.Responded? && FirstText(upstream.data).None? ==>
              c.result == Failure(ApiErrorPrefix + InvalidFormatError)
    ensures keyPresent && upstream.Rejected? ==>
              c.result == Failure(CaughtError(upstream.status, upstream.message))
  {
    if !keyPresent then Call([], Failure(KeyMissingError))
    else
      var outcome :=
        match upstream
        case Responded(data) =>
          (match FirstText(data)
           case Some(t) => Success(Trim(t))
           // the error thrown inside `try` is caught and rethrown by `catch`
           case None => Failure(CaughtError(None, InvalidFormatError)))
        case Rejected(status, message) => Failure(CaughtError(status, message));
      Call([BuildRequest(userMessage)], outcome)
  }

  /** Whatever the message and the endpoint, a request goes out exactly
      when the variable holds a non-empty key; an unset or empty variable
      ends the call with the key-missing error. */
  lemma EmptyKeySendsNothing(env: Option<string>, userMessage: string, upstream: Upstream)
    ensures Respond(KeyPresent(env), userMessage, upstream).requests != [] <==> env.Some? && env.value != ""
    ensures env.None? || env.value == "" ==>
              Respond(KeyPresent(env), userMessage, upstream).result == Failure(KeyMissingError)
  {
  }

  /** A success hands back exactly the trimmed text of the first part. */
  lemma RespondReturnsTrimmedText(userMessage: string, t: string, moreParts: seq<Part>, moreCandidates: seq<Candidate>)
    requires t != ""
    ensures Respond(true, userMessage, Responded(Some(WellFormed(t, moreParts, moreCandidates)))).result
            == Success(Trim(t))
  {
  }

  /** A first part holding only whitespace passes the emptiness guard and
      still yields an empty reply, since trimming happens after it. */
  lemma WhitespaceReplyBecomesEmpty(userMessage: string, t: string)
    requires t != "" && AllSpace(t)
    ensures Respond(true, userMessage, Responded(Some(WellFormed(t, [], [])))).result == Success("")
  {
    RespondReturnsTrimmedText(userMessage, t, [], []);
    TrimOfSpaces(t);
  }
}

=== FILE: outbound.dfy ===
/** The messages the bot posts to the Messenger Send API
    (server.js `sendTypingIndicator`, `sendTextMessage`, `sendQuickReply`,
    `sendButtonTemplate`), as datatypes and as the JSON objects they become. */
module Outbound {
  import opened Wrappers

  datatype SenderAction = TypingOn | TypingOff

  /** A quick-reply chip; its `content_type` is always "text". */
  datatype QuickReply = QuickReply(title: string, payload: string)

  datatype Button =
    | PostbackButton(title: string, payload: string)
    | WebUrlButton(title: string, url: string)

  datatype Payload =
    | Action(action: SenderAction)
    | Text(text: string)
    | TextWithReplies(text: string, replies: seq<QuickReply>)
    | ButtonTemplate(text: string, buttons: seq<Button>)

  /** One Send API request body: a recipient and what to show them. */
  datatype Message = Message(recipient: string, payload: Payload)

  // ---------------------------------------------------------------------------
  // Fixed content
  // ---------------------------------------------------------------------------

  /** The five chips every quick-reply message carries, in this order. */
  const StandardReplies: seq<QuickReply> := [
    QuickReply("\U{23F0} Hours", "HOURS"),
    QuickReply("\U{1F4CD} Location", "LOCATION"),
    QuickReply("\U{1F4E7} Contact", "CONTACT"),
    QuickReply("\U{1F6F9} Services", "SERVICES"),
    QuickReply("\U{1F4B0} Pricing", "PRICING")
  ]

  const WelcomeTemplateText := "Welcome to Kaslod Crew! \U{1F6F9} I'm an AI-powered assistant. Choose an option:"

  const MenuButtons: seq<Button> := [
    PostbackButton("\U{1F4CB} View FAQs", "SHOW_FAQS"),
    PostbackButton("\U{1F4E7} Contact Us", "CONTACT_US"),
    WebUrlButton("\U{1F310} Facebook Page", "https://facebook.com/kaslodcrew")
  ]

  // ---------------------------------------------------------------------------
  // Wire format
  // ---------------------------------------------------------------------------

  /** The JSON values the Send API bodies are made of. */
  datatype Json =
    | JString(str: string)
    | JObject(fields: seq<(string, Json)>)
    | JArray(items: seq<Json>)

  /** `i` is the first position of a field called `name`. */
  predicate IsFirstField(fields: seq<(string, Json)>, name: string, i: int) {
    && 0 <= i < |fields|
    && fields[i].0 == name
    && forall j :: 0 <= j < i ==> fields[j].0 != name
  }

  /** The value of the first field called `name`; the encoders below never
      repeat a key, so "first" only matters for foreign input. */
  function Lookup(fields: seq<(string, Json)>, name: string): (r: Option<Json>)
    ensures r.None? <==> forall i :: 0 <= i < |fields| ==> fields[i].0 != name
    ensures forall i :: IsFirstField(fields, name, i) ==> r == Some(fields[i].1)
  {
    LookupFrom(fields, name, 0)
  }

  function LookupFrom(fields: seq<(string, Json)>, name: string, k: nat): (r: Option<Json>)
    requires k <= |fields|
    ensures r.None? <==> forall i :: k <= i < |fields| ==> fields[i].0 != name
    ensures forall i ::
              (k <= i < |fields| && fields[i].0 == name && forall j :: k <= j < i ==> fields[j].0 != name)
              ==> r == Some(fields[i].1)
    decreases |fields| - k
  {
    if k == |fields| then None
    else if fields[k].0 == name then Some(fields[k].1)
    else LookupFrom(fields, name, k + 1)
  }

  /** The field `name` of `j`, when `j` is an object that has one. */
  function Field(j: Json, name: string): Option<Json> {
    match j
    case JObject(fields) => Lookup(fields, name)
    case _ => None
  }

  function ActionName(a: SenderAction): string {
    match a
    case TypingOn => "typing_on"
    case TypingOff => "typing_off"
  }

  function ParseAction(s: string): (r: Option<SenderAction>)
    ensures r.Some? ==> ActionName(r.value) == s
  {
    if s == "typing_on" then Some(TypingOn)
    else if s == "typing_off" then Some(TypingOff)
    else None
  }

  function EncodeReply(q: QuickReply): Json {
    JObject([("content_type", JString("text")), ("title", JString(q.title)), ("payload", JString(q.payload))])
  }

  function EncodeReplies(qs: seq<QuickReply>): (r: seq<Json>)
    ensures |r| == |qs|
    ensures forall i :: 0 <= i < |qs| ==> r[i] == EncodeReply(qs[i])
  {
    if |qs| == 0 then [] else [EncodeReply(qs[0])] + EncodeReplies(qs[1..])
  }

  function EncodeButton(b: Button): Json {
    match b
    case PostbackButton(t, p) =>
      JObject([("type", JString("postback")), ("title", JString(t)), ("payload", JString(p))])
    case WebUrlButton(t, u) =>
      JObject([("type", JString("web_url")), ("title", JString(t)), ("url", JString(u))])
  }

  function EncodeButtons(bs: seq<Button>): (r: seq<Json>)
    ensures |r| == |bs|
    ensures forall i :: 0 <= i < |bs| ==> r[i] == EncodeButton(bs[i])
  {
    if |bs| == 0 then [] else [EncodeButton(bs[0])] + EncodeButtons(bs[1..])
  }

  function EncodePayload(p: Payload): (string, Json) {
    match p
    case Action(a) => ("sender_action", JString(ActionName(a)))
    case Text(t) => ("message", JObject([("text", JString(t))]))
    case TextWithReplies(t, qs) =>
      ("message", JObject([("text", JString(t)), ("quick_replies", JArray(EncodeReplies(qs)))]))
    case ButtonTemplate(t, bs) => ("message", JObject([("attachment", TemplateAttachment(t, bs))]))
  }

  /** The `attachment` object of a button template. */
  function TemplateAttachment(t: string, bs: seq<Button>): Json {
    JObject([("type", JString("template")), ("payload", TemplatePayload(t, bs))])
  }

  function TemplatePayload(t: string, bs: seq<Button>): Json {
    JObject([("template_type", JString("button")), ("text", JString(t)), ("buttons", JArray(EncodeButtons(bs)))])
  }

  /** The `messageData` object handed to `callSendAPI`. */
  function Encode(m: Message): Json {
    JObject([("recipient", JObject([("id", JString(m.recipient))])), EncodePayload(m.payload)])
  }

  /** The field `name` of `j`, when it holds a string. */
  function FieldString(j: Json, name: string): Option<string> {
    match Field(j, name)
    case Some(JString(s)) => Some(s)
    case _ => None
  }

  function DecodeReply(j: Json): Option<QuickReply> {
    if FieldString(j, "content_type") != Some("text") then None
    else
      var t :- FieldString(j, "title");
      var p :- FieldString(j, "payload");
      Some(QuickReply(t, p))
  }

  function DecodeReplies(js: seq<Json>): Option<seq<QuickReply>> {
    if |js| == 0 then Some([])
    else
      var q :- DecodeReply(js[0]);
      var rest :- DecodeReplies(js[1..]);
      Some([q] + rest)
  }

  function DecodeButton(j: Json): Option<Button> {
    var ty :- FieldString(j, "type");
    var t :- FieldString(j, "title");
    if ty == "postback" then
      var p :- FieldString(j, "payload");
      Some(PostbackButton(t, p))
    else if ty == "web_url" then
      var u :- FieldString(j, "url");
      Some(WebUrlButton(t, u))
    else None
  }

  function DecodeButtons(js: seq<Json>): Option<seq<Button>> {
    if |js| == 0 then Some([])
    else
      var b :- DecodeButton(js[0]);
      var rest :- DecodeButtons(js[1..]);
      Some([b] + rest)
  }

  /** Reads the `message` object: a button template when it has an
      `attachment`, otherwise text with or without quick replies. */
  function DecodeMessageBody(j: Json): Option<Payload> {
    match Field(j, "attachment")
    case Some(att) =>
      if FieldString(att, "type") != Some("template") then None
      else
        var p :- Field(att, "payload");
        if FieldString(p, "template_type") != Some("button") then None
        else
          var t :- FieldString(p, "text");
          (match Field(p, "buttons")
           case Some(JArray(items)) =>
             var bs :- DecodeButtons(items);
             Some(ButtonTemplate(t, bs))
           case _ => None)
    case None =>
      var t :- FieldString(j, "text");
      match Field(j, "quick_replies")
      case None => Some(Text(t))
      case Some(JArray(items)) =>
        var qs :- DecodeReplies(items);
        Some(TextWithReplies(t, qs))
      case Some(_) => None
  }

  /** Reads a Send API body back into a message. */
  function Decode(j: Json): Option<Message> {
    var r :- Field(j, "recipient");
    var id :- FieldString(r, "id");
    match Field(j, "sender_action")
    case Some(JString(a)) =>
      var action :- ParseAction(a);
      Some(Message(id, Action(action)))
    case Some(_) => None
    case None =>
      var body :- Field(j, "message");
      var p :- DecodeMessageBody(body);
      Some(Message(id, p))
  }

  lemma ReplyRoundTrip(q: QuickReply)
    ensures DecodeReply(EncodeReply(q)) == Some(q)
  {
    var f := EncodeReply(q).fields;
    assert IsFirstField(f, "content_type", 0);
    assert IsFirstField(f, "title", 1);
    assert IsFirstField(f, "payload", 2);
  }

  lemma {:induction false} RepliesRoundTrip(qs: seq<QuickReply>)
    ensures DecodeReplies(EncodeReplies(qs)) == Some(qs)
  {
    if |qs| > 0 {
      ReplyRoundTrip(qs[0]);
      RepliesRoundTrip(qs[1..]);
      assert EncodeReplies(qs)[1..] == EncodeReplies(qs[1..]);
      assert [qs[0]] + qs[1..] == qs;
    }
  }

  lemma ButtonRoundTrip(b: Button)
    ensures DecodeButton(EncodeButton(b)) == Some(b)
  {
    var f := EncodeButton(b).fields;
    assert IsFirstField(f, "type", 0);
    assert IsFirstField(f, "title", 1);
    assert IsFirstField(f, if b.PostbackButton? then "payload" else "url", 2);
  }

  lemma {:induction false} ButtonsRoundTrip(bs: seq<Button>)
    ensures DecodeButtons(EncodeButtons(bs)) == Some(bs)
  {
    if |bs| > 0 {
      ButtonRoundTrip(bs[0]);
      ButtonsRoundTrip(bs[1..]);
      assert EncodeButtons(bs)[1..] == EncodeButtons(bs[1..]);
      assert [bs[0]] + bs[1..] == bs;
    }
  }

  lemma TemplatePayloadFields(t: string, bs: seq<Button>)
    ensures FieldString(TemplatePayload(t, bs), "template_type") == Some("button")
    ensures FieldString(TemplatePayload(t, bs), "text") == Some(t)
    ensures Field(TemplatePayload(t, bs), "buttons") == Some(JArray(EncodeButtons(bs)))
  {
    var f := TemplatePayload(t, bs).fields;
    assert IsFirstField(f, "template_type", 0);
    assert IsFirstField(f, "text", 1);
    assert IsFirstField(f, "buttons", 2);
  }

  lemma TemplateAttachmentFields(t: string, bs: seq<Button>)
    ensures FieldString(TemplateAttachment(t, bs), "type") == Some("template")
    ensures Field(TemplateAttachment(t, bs), "payload") == Some(TemplatePayload(t, bs))
  {
    var f := TemplateAttachment(t, bs).fields;
    assert IsFirstField(f, "type", 0);
    assert IsFirstField(f, "payload", 1);
  }

  lemma TemplateRoundTrip(t: string, bs: seq<Button>)
    ensures DecodeMessageBody(EncodePayload(ButtonTemplate(t, bs)).1) == Some(ButtonTemplate(t, bs))
  {
    var body := EncodePayload(ButtonTemplate(t, bs)).1;
    assert IsFirstField(body.fields, "attachment", 0);
    assert Field(body, "attachment") == Some(TemplateAttachment(t, bs));
    TemplateAttachmentFields(t, bs);
    TemplatePayloadFields(t, bs);
    ButtonsRoundTrip(bs);
  }

  lemma TextBodyRoundTrip(p: Payload)
    requires p.Text? || p.TextWithReplies?
    ensures DecodeMessageBody(EncodePayload(p).1) == Some(p)
  {
    var body := EncodePayload(p).1;
    assert Field(body, "attachment").None?;
    assert IsFirstField(body.fields, "text", 0);
    if p.TextWithReplies? {
      assert IsFirstField(body.fields, "quick_replies", 1);
      RepliesRoundTrip(p.replies);
    } else {
      assert Field(body, "quick_replies").None?;
    }
  }

  /** Every message the bot can build is read back unchanged from its JSON:
      the wire format loses nothing and confuses no two shapes. */
  lemma EncodeRoundTrip(m: Message)
    ensures Decode(Encode(m)) == Some(m)
  {
    var j := Encode(m);
    assert IsFirstField(j.fields, "recipient", 0);
    assert IsFirstField(j.fields[0].1.fields, "id", 0);
    if m.payload.Action? {
      assert IsFirstField(j.fields, "sender_action", 1);
    } else {
      assert Field(j, "sender_action").None?;
      assert IsFirstField(j.fields, "message", 1);
      if m.payload.ButtonTemplate? {
        TemplateRoundTrip(m.payload.text, m.payload.buttons);
      } else {
        TextBodyRoundTrip(m.payload);
      }
    }
  }

  // ---------------------------------------------------------------------------
  // Builders
  // ---------------------------------------------------------------------------

  /** `sendTypingIndicator`: a `sender_action` of "typing_on" or "typing_off". */
  function TypingIndicator(recipient: string, isTyping: bool): (m: Message)
    ensures m.recipient == recipient && m.payload.Action?
    ensures ActionName(m.payload.action) == if isTyping then "typing_on" else "typing_off"
  {
    Message(recipient, Action(if isTyping then TypingOn else TypingOff))
  }

  /** `sendTextMessage`: plain text with no quick replies. */
  function TextMessage(recipient: string, text: string): (m: Message)
    ensures m.recipient == recipient && m.payload.Text? && m.payload.text == text
  {
    Message(recipient, Text(text))
  }

  /** `sendQuickReply`: the text plus the five standard chips. */
  function QuickReplyMessage(recipient: string, text: string): (m: Message)
    ensures m.recipient == recipient && m.payload.TextWithReplies?
    ensures m.payload.text == text && m.payload.replies == StandardReplies
  {
    Message(recipient, TextWithReplies(text, StandardReplies))
  }

  /** `sendButtonTemplate`: the welcome card with its three buttons. */
  function ButtonTemplateMessage(recipient: string): (m: Message)
    ensures m.recipient == recipient
    ensures m.payload == ButtonTemplate(WelcomeTemplateText, MenuButtons)
  {
    Message(recipient, ButtonTemplate(WelcomeTemplateText, MenuButtons))
  }

  /** On the wire a typing indicator is a bare `sender_action` beside the
      recipient id, with no `message` object. */
  lemma TypingIndicatorWire(recipient: string, isTyping: bool)
    ensures var j := Encode(TypingIndicator(recipient, isTyping));
            && Field(j, "recipient") == Some(JObject([("id", JString(recipient))]))
            && FieldString(Field(j, "recipient").value, "id") == Some(recipient)
            && FieldString(j, "sender_action") == Some(if isTyping then "typing_on" else "typing_off")
            && Field(j, "message").None?
  {
    var j := Encode(TypingIndicator(recipient, isTyping));
    assert IsFirstField(j.fields, "recipient", 0);
    assert IsFirstField(j.fields, "sender_action", 1);
    assert IsFirstField(j.fields[0].1.fields, "id", 0);
  }

  function ReplyPayloads(qs: seq<QuickReply>): (r: seq<string>)
    ensures |r| == |qs|
    ensures forall i :: 0 <= i < |qs| ==> r[i] == qs[i].payload
  {
    seq(|qs|, i requires 0 <= i < |qs| => qs[i].payload)
  }

  /** Every quick reply carries the same five chips, HOURS first and
      PRICING last, each sent with `content_type` "text". */
  lemma QuickRepliesFixed(recipient: string, text: string)
    ensures var m := QuickReplyMessage(recipient, text);
            ReplyPayloads(m.payload.replies) == ["HOURS", "LOCATION", "CONTACT", "SERVICES", "PRICING"]
    ensures forall i :: 0 <= i < |StandardReplies| ==>
              FieldString(EncodeReplies(StandardReplies)[i], "content_type") == Some("text")
  {
    var m := QuickReplyMessage(recipient, text);
    assert ReplyPayloads(m.payload.replies) == ["HOURS", "LOCATION", "CONTACT", "SERVICES", "PRICING"];
    forall i | 0 <= i < |StandardReplies|
      ensures FieldString(EncodeReplies(StandardReplies)[i], "content_type") == Some("text")
    {
      assert IsFirstField(EncodeReply(StandardReplies[i]).fields, "content_type", 0);
    }
  }
}

=== FILE: postback.dfy ===
/** Button clicks (server.js `handlePostback`): a closed set of payload
    codes, each answered with one fixed message; the AI is never involved. */
module Postback {
  import opened Wrappers
  import opened Faq
  import opened Outbound
  import opened Text

  /** The payloads the switch names, and everything else. */
  datatype Code = GetStarted | ShowFaqs | ContactUs | Unrecognised

  const FaqListText := "Here are some things I can help you with! Click a button or just ask me anything. \U{1F447}"
  const DefaultText := "How can I help you today? \U{1F6F9}"

  /** The wire spelling of each named code. */
  function CodeName(c: Code): string
    requires c != Unrecognised
  {
    match c
    case GetStarted => "GET_STARTED"
    case ShowFaqs => "SHOW_FAQS"
    case ContactUs => "CONTACT_US"
  }

  /** The `switch`: strict, case-sensitive equality against the three
      names; an absent payload falls to the default like any other. */
  function Parse(payload: Option<string>): (c: Code)
    ensures c != Unrecognised ==> payload == Some(CodeName(c))
    ensures c == Unrecognised ==>
              forall k :: k != Unrecognised ==> payload != Some(CodeName(k))
  {
    match payload
    case Some("GET_STARTED") => GetStarted
    case Some("SHOW_FAQS") => ShowFaqs
    case Some("CONTACT_US") => ContactUs
    case _ => Unrecognised
  }

  lemma ParseRoundTrip(c: Code)
    requires c != Unrecognised
    ensures Parse(Some(CodeName(c))) == c
  {
  }

  /** Lower-case spellings are not recognised. */
  lemma ParseIsCaseSensitive()
    ensures Parse(Some("get_started")) == Unrecognised
    ensures Parse(Some("Contact_Us")) == Unrecognised
  {
  }

  /** `handlePostback(sender, payload)`: the one message it sends. */
  function HandlePostback(sender: string, payload: Option<string>): (m: Message)
    ensures m.recipient == sender
    ensures payload == Some("GET_STARTED") <==> m.payload.ButtonTemplate?
    ensures payload == Some("GET_STARTED") ==> m == ButtonTemplateMessage(sender)
    ensures payload == Some("SHOW_FAQS") ==> m == QuickReplyMessage(sender, FaqListText)
    ensures payload == Some("CONTACT_US") ==> m == QuickReplyMessage(sender, Faqs[ContactIndex].answer)
    ensures Parse(payload) == Unrecognised ==> m == QuickReplyMessage(sender, DefaultText)
  {
    match Parse(payload)
    case GetStarted => ButtonTemplateMessage(sender)
    case ShowFaqs => QuickReplyMessage(sender, FaqListText)
    case ContactUs => QuickReplyMessage(sender, Faqs[ContactIndex].answer)
    case Unrecognised => QuickReplyMessage(sender, DefaultText)
  }

  /** Every postback button on the welcome card carries a payload the
      handler recognises, so no click on it lands in the default branch. */
  lemma MenuButtonsRecognised()
    ensures forall i :: 0 <= i < |MenuButtons| && MenuButtons[i].PostbackButton? ==>
              Parse(Some(MenuButtons[i].payload)) != Unrecognised
  {
  }

  /** The contact button answers exactly what the keyword fallback gives
      for a message that names only "contact". */
  lemma ContactMatchesFallback(sender: string)
    ensures HandlePostback(sender, Some("CONTACT_US")).payload.text == Fallback("contact")
  {
    assert !Contains("contact", ThanksKeyword) by {
      if Contains("contact", ThanksKeyword) {
        ContainsCharOf("contact", ThanksKeyword, 1);
      }
    }
    assert !Contains("contact", Faqs[0].key) by {
      if Contains("contact", Faqs[0].key) {
        ContainsCharOf("contact", Faqs[0].key, 0);
      }
    }
    assert !Contains("contact", Faqs[1].key);
    assert Contains("contact", Faqs[2].key);
    assert IsFirstHit("contact", Faqs, ContactIndex);
  }
}

=== FILE: router.dfy ===
/** How one inbound text message is answered (server.js `handleMessage`):
    a typing indicator, then either the welcome for a bare greeting, or the
    AI's reply, or the keyword fallback when the AI call fails. */
module Router {
  import opened Wrappers
  import opened Text
  import opened Faq
  import opened Outbound
  import opened Gemini

  /** The words the greeting pattern `^(hi|hello|...|menu)$` accepts. */
  const Greetings: seq<string> := ["hi", "hello", "hey", "greetings", "sup", "yo", "start", "menu"]

  const WelcomeText := "Hey there! \U{1F44B} Welcome to Kaslod Crew. I'm an AI assistant. What would you like to know?"

  /** The anchored pattern matches the whole lower-cased message, so a
      greeting is one short lower-case word and nothing else. */
  predicate IsGreeting(lower: string)
    ensures IsGreeting(lower) ==> IsLowerText(lower) && 2 <= |lower| <= 9 && ' ' !in lower
  {
    lower in Greetings
  }

  /** Both anchors matter: a greeting with anything before or after it is
      not a greeting, since no greeting word starts or ends another. */
  lemma GreetingIsWholeMessage(g: string, x: string)
    requires IsGreeting(g) && x != ""
    ensures !IsGreeting(g + x) && !IsGreeting(x + g)
  {
    GreetingWords(g);
    var after, before := g + x, x + g;
    assert after[0] == g[0] && after[1] == g[1] && (|g| >= 3 ==> after[2] == g[2]);
    assert before[|before| - 1] == g[|g| - 1] && before[|before| - 2] == g[|g| - 2];
    if IsGreeting(g + x) {
      GreetingWords(g + x);
    }
    if IsGreeting(x + g) {
      GreetingWords(x + g);
    }
  }

  /** The eight words, spelled out. */
  lemma GreetingWords(s: string)
    requires IsGreeting(s)
    ensures || s == "hi" || s == "hello" || s == "hey" || s == "greetings"
            || s == "sup" || s == "yo" || s == "start" || s == "menu"
  {
  }

  /** The text of the reply to a non-greeting: the AI's text, or the
      fallback for the lower-cased message when the AI call threw. */
  function ReplyText(lower: string, ai: Result<string, string>): string {
    match ai
    case Success(t) => t
    case Failure(_) => Fallback(lower)
  }

  /** The messages sent for `text` from `sender`, in order, given what the
      AI call would return. */
  function Route(sender: string, text: string, ai: Result<string, string>): (out: seq<Message>)
    ensures |out| == 2
    ensures out[0] == TypingIndicator(sender, true)
    ensures out[1].recipient == sender && out[1].payload.TextWithReplies?
    ensures out[1].payload.replies == StandardReplies
    ensures IsGreeting(ToLower(text)) ==> out[1].payload.text == WelcomeText
    ensures !IsGreeting(ToLower(text)) && ai.Success? ==> out[1].payload.text == ai.value
    ensures !IsGreeting(ToLower(text)) && ai.Failure? ==> out[1].payload.text == Fallback(ToLower(text))
  {
    var lower := ToLower(text);
    var reply := if IsGreeting(lower) then WelcomeText else ReplyText(lower, ai);
    [TypingIndicator(sender, true), QuickReplyMessage(sender, reply)]
  }

  /** A greeting is answered without looking at the AI outcome. */
  lemma GreetingIgnoresAi(sender: string, text: string, ai1: Result<string, string>, ai2: Result<string, string>)
    requires IsGreeting(ToLower(text))
    ensures Route(sender, text, ai1) == Route(sender, text, ai2)
  {
  }

  /** The router reads the message only through its lower-cased form, so
      changing the case of a message never changes the reply: "HELLO",
      "Hello" and "hello" are all greetings. */
  lemma RouteIgnoresCase(sender: string, text: string, ai: Result<string, string>)
    ensures Route(sender, text, ai) == Route(sender, ToLower(text), ai)
    ensures IsGreeting(ToLower("HELLO")) && IsGreeting(ToLower("Hello"))
  {
    ToLowerIdempotent(text);
    assert ToLower("HELLO") == "hello";
    assert ToLower("Hello") == "hello";
  }

  /** An AI error never reaches the user: the reply does not depend on the
      error, and it is one of the canned fallback answers. */
  lemma AiErrorNeverShown(sender: string, text: string, e1: string, e2: string)
    requires !IsGreeting(ToLower(text))
    ensures Route(sender, text, Failure(e1)) == Route(sender, text, Failure(e2))
    ensures IsCannedReply(Route(sender, text, Failure(e1))[1].payload.text)
  {
    FallbackIsCanned(ToLower(text));
  }

  /** No greeting word contains "thank": none of them has a 'k'. */
  lemma NoGreetingThanks(lower: string)
    requires Contains(lower, ThanksKeyword)
    ensures !IsGreeting(lower)
  {
    ContainsCharOf(lower, ThanksKeyword, 4);
    assert 'k' in lower;
  }

  /** Once the AI has failed, a message containing "thank" in any
      capitalisation gets the thanks reply whatever FAQ keywords it also
      contains, since the fallback reads the lower-cased text. */
  lemma ThanksBeatsFaqs(sender: string, text: string, e: string)
    requires Contains(ToLower(text), ThanksKeyword)
    ensures Route(sender, text, Failure(e))[1].payload.text == ThanksReply
  {
    NoGreetingThanks(ToLower(text));
  }

  /** For instance, a shouted "THANK YOU" is thanked. */
  lemma ShoutedThanks(sender: string, e: string)
    ensures Route(sender, "THANK YOU", Failure(e))[1].payload.text == ThanksReply
  {
    assert ToLower("THANK YOU") == ThanksKeyword + " you";
    ContainsInfix([], ThanksKeyword, " you");
    ThanksBeatsFaqs(sender, "THANK YOU", e);
  }

  // ---------------------------------------------------------------------------
  // With the AI call in the loop
  // ---------------------------------------------------------------------------

  /** Something the handler does: post a message, or ask the model. */
  datatype Effect = Send(message: Message) | Consult(request: Request)

  function Consults(rs: seq<Request>): (es: seq<Effect>)
    ensures |es| == |rs|
    ensures forall i :: 0 <= i < |rs| ==> es[i] == Consult(rs[i])
  {
    seq(|rs|, i requires 0 <= i < |rs| => Consult(rs[i]))
  }

  /** The messages among the effects, in order. */
  function Sent(es: seq<Effect>): (ms: seq<Message>)
    ensures |ms| <= |es|
  {
    if |es| == 0 then []
    else (if es[0].Send? then [es[0].message] else []) + Sent(es[1..])
  }

  function ConsultCount(es: seq<Effect>): nat {
    if |es| == 0 then 0 else (if es[0].Consult? then 1 else 0) + ConsultCount(es[1..])
  }

  /** `handleMessage(sender, text)` with the AI call made through
      `getGeminiResponse`: everything it does, in order. */
  function HandleMessage(sender: string, text: string, keyPresent: bool, upstream: Upstream): (es: seq<Effect>)
    ensures |es| >= 2 && es[0] == Send(TypingIndicator(sender, true))
    ensures es[|es| - 1].Send? && es[|es| - 1].message.payload.TextWithReplies?
    ensures IsGreeting(ToLower(text)) ==> es == [es[0], Send(QuickReplyMessage(sender, WelcomeText))]
    ensures !IsGreeting(ToLower(text)) && keyPresent ==>
              |es| == 3 && es[1].Consult? && UserMessageOf(es[1].request.prompt) == Some(text)
              && es[1].request == BuildRequest(text)
    ensures !IsGreeting(ToLower(text)) && !keyPresent ==>
              es == [es[0], Send(QuickReplyMessage(sender, Fallback(ToLower(text))))]
  {
    var lower := ToLower(text);
    var typing := Send(TypingIndicator(sender, true));
    if IsGreeting(lower) then [typing, Send(QuickReplyMessage(sender, WelcomeText))]
    else
      var call := Respond(keyPresent, text, upstream);
      [typing] + Consults(call.requests) + [Send(QuickReplyMessage(sender, ReplyText(lower, call.result)))]
  }

  lemma {:induction false} SentAppend(a: seq<Effect>, b: seq<Effect>)
    ensures Sent(a + b) == Sent(a) + Sent(b)
  {
    if |a| == 0 {
      assert a + b == b;
    } else {
      var head := if a[0].Send? then [a[0].message] else [];
      assert (a + b)[0] == a[0];
      assert (a + b)[1..] == a[1..] + b;
      SentAppend(a[1..], b);
      assert Sent(a + b) == head + (Sent(a[1..]) + Sent(b));
      assert Sent(a) == head + Sent(a[1..]);
    }
  }

  lemma {:induction false} ConsultCountAppend(a: seq<Effect>, b: seq<Effect>)
    ensures ConsultCount(a + b) == ConsultCount(a) + ConsultCount(b)
  {
    if |a| == 0 {
      assert a + b == b;
    } else {
      assert (a + b)[0] == a[0];
      assert (a + b)[1..] == a[1..] + b;
      ConsultCountAppend(a[1..], b);
    }
  }

  /** The messages the handler posts are exactly what the pure router
      decides from the outcome `getGeminiResponse` produces. */
  lemma HandleMessageFollowsRoute(sender: string, text: string, keyPresent: bool, upstream: Upstream)
    ensures Sent(HandleMessage(sender, text, keyPresent, upstream))
            == Route(sender, text, Respond(keyPresent, text, upstream).result)
  {
    var es := HandleMessage(sender, text, keyPresent, upstream);
    if !IsGreeting(ToLower(text)) {
      var call := Respond(keyPresent, text, upstream);
      var typing := [Send(TypingIndicator(sender, true))];
      var reply := [Send(QuickReplyMessage(sender, ReplyText(ToLower(text), call.result)))];
      SentAppend(typing + Consults(call.requests), reply);
      SentAppend(typing, Consults(call.requests));
      if keyPresent {
        assert Sent(Consults(call.requests)) == [];
      }
    }
  }

  /** The model is asked at most once per message, and never for a greeting
      or when no key is configured. */
  lemma ConsultsAtMostOnce(sender: string, text: string, keyPresent: bool, upstream: Upstream)
    ensures var n := ConsultCount(HandleMessage(sender, text, keyPresent, upstream));
            && n <= 1
            && (n == 1 <==> keyPresent && !IsGreeting(ToLower(text)))
  {
    var typing := Send(TypingIndicator(sender, true));
    if IsGreeting(ToLower(text)) {
      SendsAroundConsults(typing, [], Send(QuickReplyMessage(sender, WelcomeText)));
      assert [typing] + Consults([]) + [Send(QuickReplyMessage(sender, WelcomeText))]
             == [typing, Send(QuickReplyMessage(sender, WelcomeText))];
    } else {
      var call := Respond(keyPresent, text, upstream);
      SendsAroundConsults(typing, call.requests,
        Send(QuickReplyMessage(sender, ReplyText(ToLower(text), call.result))));
    }
  }

  /** Two sends around some requests consult once per request. */
  lemma SendsAroundConsults(first: Effect, rs: seq<Request>, last: Effect)
    requires first.Send? && last.Send?
    ensures ConsultCount([first] + Consults(rs) + [last]) == |rs|
  {
    ConsultCountAppend([first] + Consults(rs), [last]);
    ConsultCountAppend([first], Consults(rs));
    assert [first][1..] == [] && [last][1..] == [];
    ConsultsCount(rs);
  }

  lemma {:induction false} ConsultsCount(rs: seq<Request>)
    ensures ConsultCount(Consults(rs)) == |rs|
  {
    if |rs| > 0 {
      assert Consults(rs)[1..] == Consults(rs[1..]);
      ConsultsCount(rs[1..]);
    }
  }

  /** With no key configured, "hours" is answered with the hours FAQ. */
  lemma HoursWithoutAi(sender: string, upstream: Upstream)
    ensures HandleMessage(sender, "hours", false, upstream)[1]
            == Send(QuickReplyMessage(sender, Faqs[HoursIndex].answer))
  {
    ToLowerOfLower("hours");
    assert !IsGreeting("hours");
    assert !Contains("hours", ThanksKeyword) by {
      if Contains("hours", ThanksKeyword) {
        ContainsCharOf("hours", ThanksKeyword, 0);
      }
    }
    assert IsFirstHit("hours", Faqs, HoursIndex);
  }

  /** The lower-cased title of the i-th quick-reply chip names the i-th FAQ
      key and no earlier one, so when the AI is unavailable, sending a chip's
      title back gets that FAQ's answer. */
  lemma ChipTitlesFindTheirFaq(i: nat, sender: string, e: string)
    requires i < |StandardReplies|
    ensures Fallback(ToLower(StandardReplies[i].title)) == Faqs[i].answer
    ensures Route(sender, StandardReplies[i].title, Failure(e))[1].payload.text == Faqs[i].answer
  {
    ChipTitleFallback(i);
    ChipTitleNotGreeting(i);
  }

  /** No chip title is a greeting: each lower-cases to an emoji, a space
      and a FAQ key. */
  lemma ChipTitleNotGreeting(i: nat)
    requires i < |StandardReplies|
    ensures !IsGreeting(ToLower(StandardReplies[i].title))
  {
    ChipTitleLower(i);
  }

  lemma ChipTitleFallback(i: nat)
    requires i < |StandardReplies|
    ensures Fallback(ToLower(StandardReplies[i].title)) == Faqs[i].answer
  {
    ChipTitleLower(i);
    ContainsInfix([StandardReplies[i].title[0], ' '], Faqs[i].key, []);
    assert [StandardReplies[i].title[0], ' '] + Faqs[i].key + [] == ToLower(StandardReplies[i].title);
    LabelMissesEarlierKeys(StandardReplies[i].title[0], i);
  }

  /** Each chip title is an emoji, a space and the capitalised FAQ key. */
  lemma ChipTitleLower(i: nat)
    requires i < |StandardReplies|
    ensures ToLower(StandardReplies[i].title) == [StandardReplies[i].title[0], ' '] + Faqs[i].key
  {
  }
}

=== FILE: text.dfy ===
/** String primitives the bot relies on: lower-casing (`toLowerCase`),
    substring search (`includes`), whitespace trimming (`trim`) and the
    decimal rendering a number gets inside a template literal. */
module Text {

  // ---------------------------------------------------------------------------
  // Lower-casing
  // ---------------------------------------------------------------------------

  predicate IsUpperAscii(c: char) {
    'A' <= c <= 'Z'
  }

  /** A string in which no ASCII capital letter occurs. */
  predicate IsLowerText(s: string) {
    forall i :: 0 <= i < |s| ==> !IsUpperAscii(s[i])
  }

  /** Lower-cases one character; only the ASCII capitals change. */
  function LowerChar(c: char): (d: char)
    ensures !IsUpperAscii(d)
    ensures IsUpperAscii(c) ==> d as int == c as int + 32
    ensures !IsUpperAscii(c) ==> d == c
  {
    if IsUpperAscii(c) then (c as int + 32) as char else c
  }

  /** `String.prototype.toLowerCase`, restricted to the ASCII capitals. */
  function ToLower(s: string): (r: string)
    ensures |r| == |s|
    ensures forall i :: 0 <= i < |s| ==> r[i] == LowerChar(s[i])
    ensures IsLowerText(r)
  {
    seq(|s|, i requires 0 <= i < |s| => LowerChar(s[i]))
  }

  /** Lower-casing leaves lower-case text alone, so it is idempotent. */
  lemma ToLowerOfLower(s: string)
    requires IsLowerText(s)
    ensures ToLower(s) == s
  {
  }

  lemma ToLowerIdempotent(s: string)
    ensures ToLower(ToLower(s)) == ToLower(s)
  {
    ToLowerOfLower(ToLower(s));
  }

  /** Lower-casing commutes with slicing. */
  lemma ToLowerSlice(s: string, i: nat, j: nat)
    requires i <= j <= |s|
    ensures ToLower(s)[i..j] == ToLower(s[i..j])
  {
  }

  // ---------------------------------------------------------------------------
  // Substring search
  // ---------------------------------------------------------------------------

  /** `p` occurs in `s` starting at index `i`. */
  predicate OccursAt(s: string, p: string, i: int) {
    0 <= i && i + |p| <= |s| && s[i..i + |p|] == p
  }

  /** `String.prototype.includes`: scans `s` left to right for `p`.
      The empty pattern occurs in every string. */
  function Contains(s: string, p: string): bool
    decreases |s|
  {
    if p <= s then true
    else if |s| <= |p| then false
    else Contains(s[1..], p)
  }

  /** The scan finds `p` exactly when `p` occurs at some index of `s`. */
  lemma {:induction false} ContainsIffOccurs(s: string, p: string)
    ensures Contains(s, p) <==> exists i :: OccursAt(s, p, i)
    decreases |s|
  {
    if p <= s {
      assert OccursAt(s, p, 0);
    } else if |s| <= |p| {
      forall i | 0 <= i
        ensures !OccursAt(s, p, i)
      {
      }
    } else {
      ContainsIffOccurs(s[1..], p);
      forall i | 1 <= i && i + |p| <= |s|
        ensures OccursAt(s, p, i) <==> OccursAt(s[1..], p, i - 1)
      {
        assert s[1..][i - 1..i - 1 + |p|] == s[i..i + |p|];
      }
      if Contains(s[1..], p) {
        var i :| OccursAt(s[1..], p, i);
        assert OccursAt(s, p, i + 1);
      } else {
        forall i | 0 <= i
          ensures !OccursAt(s, p, i)
        {
          if 1 <= i && i + |p| <= |s| {
            assert !OccursAt(s[1..], p, i - 1);
          }
        }
      }
    }
  }

  /** A pattern that is part of a concatenation is found in it. */
  lemma ContainsInfix(a: string, p: string, b: string)
    ensures Contains(a + p + b, p)
  {
    assert (a + p + b)[|a|..|a| + |p|] == p;
    assert OccursAt(a + p + b, p, |a|);
    ContainsIffOccurs(a + p + b, p);
  }

  /** A string can only contain patterns no longer than itself. */
  lemma ContainsOnlyShorter(s: string, p: string)
    requires Contains(s, p)
    ensures |p| <= |s|
  {
    ContainsIffOccurs(s, p);
  }

  /** Every character of a contained pattern occurs in the string; a
      cheap way to rule a pattern out. */
  lemma ContainsCharOf(s: string, p: string, k: int)
    requires Contains(s, p) && 0 <= k < |p|
    ensures p[k] in s
  {
    ContainsIffOccurs(s, p);
    var i :| OccursAt(s, p, i);
    assert s[i + k] == p[k];
  }

  /** A pattern with a character that `s` lacks is not in `s`. */
  lemma MissingCharOf(s: string, p: string, k: int)
    requires 0 <= k < |p| && p[k] !in s
    ensures !Contains(s, p)
  {
    if Contains(s, p) {
      ContainsCharOf(s, p, k);
    }
  }

  /** Lower-casing cannot destroy an occurrence of a lower-case pattern: a
      keyword already present in the raw message is still found in its
      lower-cased form. */
  lemma ContainsAfterLower(s: string, p: string)
    requires IsLowerText(p)
    requires Contains(s, p)
    ensures Contains(ToLower(s), p)
  {
    ToLowerOfLower(p);
    ContainsIffOccurs(ToLower(s), p);
    ContainsIffOccurs(s, p);
    var i :| OccursAt(s, p, i);
    ToLowerSlice(s, i, i + |p|);
    assert OccursAt(ToLower(s), p, i);
  }

  // ---------------------------------------------------------------------------
  // Trimming
  // ---------------------------------------------------------------------------

  /** The characters `String.prototype.trim` removes: the ECMAScript
      WhiteSpace set (TAB, VT, FF, SPACE, NBSP, ZWNBSP and the Unicode
      space separators) and the LineTerminator set (LF, CR, LS, PS). */
  predicate IsJsSpace(c: char) {
    || c == '\t' || c == '\n' || c == '\U{000B}' || c == '\U{000C}' || c == '\r'
    || c == ' ' || c == '\U{00A0}' || c == '\U{1680}'
    || ('\U{2000}' <= c <= '\U{200A}')
    || c == '\U{2028}' || c == '\U{2029}' || c == '\U{202F}' || c == '\U{205F}'
    || c == '\U{3000}' || c == '\U{FEFF}'
  }

  predicate AllSpace(s: string) {
    forall i :: 0 <= i < |s| ==> IsJsSpace(s[i])
  }

  /** Neither end of `s` is a trimmable character. */
  predicate IsTrimmed(s: string) {
    |s| == 0 || (!IsJsSpace(s[0]) && !IsJsSpace(s[|s| - 1]))
  }

  /** Length of the longest all-space prefix of `s`. */
  function LeadingSpaces(s: string): (n: nat)
    ensures n <= |s|
    ensures AllSpace(s[..n])
    ensures n < |s| ==> !IsJsSpace(s[n])
  {
    if |s| > 0 && IsJsSpace(s[0]) then
      var n := 1 + LeadingSpaces(s[1..]);
      assert s[..n] == [s[0]] + s[1..][..n - 1];
      n
    else 0
  }

  /** Length of the longest all-space suffix of `s`. */
  function TrailingSpaces(s: string): (n: nat)
    ensures n <= |s|
    ensures AllSpace(s[|s| - n..])
    ensures n < |s| ==> !IsJsSpace(s[|s| - 1 - n])
  {
    if |s| > 0 && IsJsSpace(s[|s| - 1]) then
      var n := 1 + TrailingSpaces(s[..|s| - 1]);
      assert s[|s| - n..] == s[..|s| - 1][|s| - n..] + [s[|s| - 1]];
      n
    else 0
  }

  /** `r` is what is left of `s` once an all-space prefix of length `lo`
      and an all-space suffix are cut off. */
  predicate TrimmedAt(s: string, r: string, lo: int) {
    && 0 <= lo && lo + |r| <= |s|
    && s[lo..lo + |r|] == r
    && AllSpace(s[..lo])
    && AllSpace(s[lo + |r|..])
  }

  /** `String.prototype.trim`: drops the surrounding whitespace and keeps
      the middle untouched. */
  function Trim(s: string): (r: string)
    ensures IsTrimmed(r)
    ensures exists lo :: TrimmedAt(s, r, lo)
  {
    var lo := LeadingSpaces(s);
    var t := s[lo..];
    var n := TrailingSpaces(t);
    TrimBounds(s, lo, t, n);
    t[..|t| - n]
  }

  /** Cutting a maximal all-space prefix and then a maximal all-space
      suffix leaves a slice with no whitespace at either end. */
  lemma TrimBounds(s: string, lo: nat, t: string, n: nat)
    requires lo <= |s| && t == s[lo..]
    requires AllSpace(s[..lo]) && (lo < |s| ==> !IsJsSpace(s[lo]))
    requires n <= |t| && AllSpace(t[|t| - n..]) && (n < |t| ==> !IsJsSpace(t[|t| - 1 - n]))
    ensures IsTrimmed(t[..|t| - n])
    ensures TrimmedAt(s, t[..|t| - n], lo)
  {
    var r := t[..|t| - n];
    assert s[lo..lo + |r|] == r;
    assert s[lo + |r|..] == t[|t| - n..];
  }

  /** A string without surrounding whitespace is its own trim. */
  lemma TrimOfTrimmed(s: string)
    requires IsTrimmed(s)
    ensures Trim(s) == s
  {
  }

  lemma TrimIdempotent(s: string)
    ensures Trim(Trim(s)) == Trim(s)
  {
    TrimOfTrimmed(Trim(s));
  }

  lemma {:induction false} LeadingSpacesOfSpaces(s: string)
    requires AllSpace(s)
    ensures LeadingSpaces(s) == |s|
  {
    if |s| > 0 {
      LeadingSpacesOfSpaces(s[1..]);
    }
  }

  /** An all-space string trims to nothing. */
  lemma TrimOfSpaces(s: string)
    requires AllSpace(s)
    ensures Trim(s) == []
  {
    LeadingSpacesOfSpaces(s);
  }

  // ---------------------------------------------------------------------------
  // Decimal numerals
  // ---------------------------------------------------------------------------

  predicate IsDigit(c: char) {
    '0' <= c <= '9'
  }

  function DigitChar(d: nat): (c: char)
    requires d < 10
    ensures IsDigit(c)
    ensures c as int - '0' as int == d
  {
    ('0' as int + d) as char
  }

  /** The shortest decimal numeral of `n`, as a template literal prints an
      HTTP status code. */
  function Decimal(n: nat): (r: string)
    ensures |r| > 0
    ensures forall i :: 0 <= i < |r| ==> IsDigit(r[i])
    ensures r[0] == '0' ==> r == "0"
    decreases n
  {
    if n < 10 then [DigitChar(n)] else Decimal(n / 10) + [DigitChar(n % 10)]
  }

  /** The number a string of digits denotes. */
  function DecimalValue(s: string): nat
    requires forall i :: 0 <= i < |s| ==> IsDigit(s[i])
  {
    if |s| == 0 then 0
    else
      assert IsDigit(s[|s| - 1]);
      10 * DecimalValue(s[..|s| - 1]) + (s[|s| - 1] as int - '0' as int)
  }

  /** Rendering then reading a numeral gives the number back, so distinct
      status codes are rendered as distinct strings. */
  lemma {:induction false} DecimalRoundTrip(n: nat)
    ensures DecimalValue(Decimal(n)) == n
    decreases n
  {
    if n >= 10 {
      var r := Decimal(n);
      assert r[..|r| - 1] == Decimal(n / 10);
      DecimalRoundTrip(n / 10);
    }
  }

  lemma DecimalInjective(m: nat, n: nat)
    requires Decimal(m) == Decimal(n)
    ensures m == n
  {
    DecimalRoundTrip(m);
    DecimalRoundTrip(n);
  }
}

=== FILE: webhook.dfy ===
/** The two `/webhook` routes of server.js as decisions over the request's
    fields: the subscription handshake (GET) and the event delivery (POST). */
module Webhook {
  import opened Wrappers
  import opened Outbound
  import opened Gemini
  import opened Router
  import opened Postback

  // ---------------------------------------------------------------------------
  // Verification handshake
  // ---------------------------------------------------------------------------

  const DefaultVerifyToken := "my_secure_verify_token_123"

  /** `process.env.VERIFY_TOKEN || 'my_secure_verify_token_123'`: an unset
      or empty variable falls back to the built-in token. */
  function VerifyToken(env: Option<string>): (t: string)
    ensures t != ""
    ensures env.Some? && env.value != "" ==> t == env.value
    ensures env.None? || env.value == "" ==> t == DefaultVerifyToken
  {
    if env.Some? && env.value != "" then env.value else DefaultVerifyToken
  }

  /** The `hub.mode`, `hub.verify_token` and `hub.challenge` query values. */
  datatype VerifyQuery = VerifyQuery(mode: Option<string>, token: Option<string>, challenge: Option<string>)

  /** 200 with the challenge echoed, 403, or no response at all. */
  datatype VerifyOutcome = Verified(challenge: Option<string>) | Forbidden | Unanswered

  /** GET `/webhook`: a present, non-empty mode and the right token are
      needed to get past the guard; only the "subscribe" mode is then
      answered, and any other mode leaves the request hanging. */
  function Verify(verifyToken: string, q: VerifyQuery): (o: VerifyOutcome)
    ensures o.Verified? <==> q.mode == Some("subscribe") && q.token == Some(verifyToken)
    ensures o.Verified? ==> o.challenge == q.challenge
    ensures o.Forbidden? <==> q.mode.None? || q.mode == Some("") || q.token != Some(verifyToken)
    ensures o.Unanswered? <==>
              q.token == Some(verifyToken) && q.mode.Some? && q.mode.value != "" && q.mode.value != "subscribe"
  {
    if q.mode.Some? && q.mode.value != "" && q.token == Some(verifyToken) then
      if q.mode.value == "subscribe" then Verified(q.challenge) else Unanswered
    else Forbidden
  }

  /** The HTTP status the handshake answers with, if any. */
  function VerifyStatus(o: VerifyOutcome): Option<nat> {
    match o
    case Verified(_) => Some(200)
    case Forbidden => Some(403)
    case Unanswered => None
  }

  /** With the configured token, a well-formed subscription is accepted and
      echoes its challenge; a wrong token is refused whatever the mode. */
  lemma HandshakeScenarios(env: Option<string>, challenge: Option<string>, wrong: string, mode: Option<string>)
    requires wrong != VerifyToken(env)
    ensures Verify(VerifyToken(env), VerifyQuery(Some("subscribe"), Some(VerifyToken(env)), challenge))
            == Verified(challenge)
    ensures VerifyStatus(Verify(VerifyToken(env), VerifyQuery(mode, Some(wrong), challenge))) == Some(403)
    ensures VerifyStatus(Verify(VerifyToken(env), VerifyQuery(mode, None, challenge))) == Some(403)
  {
  }

  // ---------------------------------------------------------------------------
  // Event delivery
  // ---------------------------------------------------------------------------

  /** `event.message`, `event.postback` and the event itself, with every
      field that may be missing made optional. */
  datatype InboundMessage = InboundMessage(text: Option<string>)
  datatype InboundPostback = InboundPostback(payload: Option<string>)
  datatype Event = Event(sender: string, message: Option<InboundMessage>, postback: Option<InboundPostback>)
  datatype PageEntry = PageEntry(messaging: seq<Event>)

  /** A POST body: its `object` field (`objectKind`) and its `entry` list. */
  datatype Delivery = Delivery(objectKind: Option<string>, entries: seq<PageEntry>)

  /** Where one event is handed. */
  datatype Dispatch = ToMessage(sender: string, text: string) | ToPostback(sender: string, payload: Option<string>)

  /** `event.message && event.message.text`: a message with non-empty text. */
  predicate HasText(e: Event) {
    e.message.Some? && e.message.value.text.Some? && e.message.value.text.value != ""
  }

  /** A message with text goes to the message handler even when the event
      also carries a postback; otherwise a postback goes to the postback
      handler; otherwise the event is dropped. */
  function Classify(e: Event): (d: Option<Dispatch>)
    ensures HasText(e) <==> d.Some? && d.value.ToMessage?
    ensures HasText(e) ==> d == Some(ToMessage(e.sender, e.message.value.text.value))
    ensures !HasText(e) && e.postback.Some? <==> d.Some? && d.value.ToPostback?
    ensures !HasText(e) && e.postback.Some? ==> d == Some(ToPostback(e.sender, e.postback.value.payload))
    ensures d.None? <==> !HasText(e) && e.postback.None?
  {
    if HasText(e) then Some(ToMessage(e.sender, e.message.value.text.value))
    else if e.postback.Some? then Some(ToPostback(e.sender, e.postback.value.payload))
    else None
  }

  /** All events of all entries, entry by entry, each in its own order. */
  function Flatten(entries: seq<PageEntry>): seq<Event> {
    if |entries| == 0 then [] else entries[0].messaging + Flatten(entries[1..])
  }

  /** The dispatches of a flat list of events: one per handled event, in
      event order. */
  function DispatchEvents(events: seq<Event>): (ds: seq<Dispatch>)
    ensures |ds| <= |events|
  {
    if |events| == 0 then [] else DispatchOne(events[0]) + DispatchEvents(events[1..])
  }

  /** The dispatches of one event: none or one. */
  function DispatchOne(e: Event): (ds: seq<Dispatch>)
    ensures |ds| <= 1
  {
    match Classify(e) case Some(d) => [d] case None => []
  }

  lemma {:induction false} DispatchEventsAppend(a: seq<Event>, b: seq<Event>)
    ensures DispatchEvents(a + b) == DispatchEvents(a) + DispatchEvents(b)
  {
    if |a| == 0 {
      assert a + b == b;
    } else {
      assert (a + b)[0] == a[0];
      assert (a + b)[1..] == a[1..] + b;
      DispatchEventsAppend(a[1..], b);
      assert DispatchEvents(a + b) == DispatchOne(a[0]) + (DispatchEvents(a[1..]) + DispatchEvents(b));
      assert DispatchEvents(a) == DispatchOne(a[0]) + DispatchEvents(a[1..]);
    }
  }

  lemma {:induction false} FlattenAppend(a: seq<PageEntry>, b: seq<PageEntry>)
    ensures Flatten(a + b) == Flatten(a) + Flatten(b)
  {
    if |a| == 0 {
      assert a + b == b;
    } else {
      assert (a + b)[0] == a[0];
      assert (a + b)[1..] == a[1..] + b;
      FlattenAppend(a[1..], b);
      assert Flatten(a + b) == a[0].messaging + (Flatten(a[1..]) + Flatten(b));
      assert Flatten(a) == a[0].messaging + Flatten(a[1..]);
    }
  }

  /** An event that is neither a text message nor a postback adds nothing. */
  lemma DroppedEventAddsNothing(before: seq<Event>, e: Event, after: seq<Event>)
    requires Classify(e).None?
    ensures DispatchEvents(before + [e] + after) == DispatchEvents(before + after)
  {
    DispatchEventsAppend(before + [e], after);
    DispatchEventsAppend(before, [e]);
    DispatchEventsAppend(before, after);
  }

  /** The HTTP reply to a delivery. */
  datatype Reply = Reply(status: nat, body: string)

  /** POST `/webhook`: for a page delivery, walks every entry's events in
      order and hands each one on, then acknowledges; any other object is
      answered 404 and nothing is handled. */
  method Deliver(d: Delivery) returns (reply: Reply, dispatched: seq<Dispatch>)
    ensures d.objectKind == Some("page") ==>
              reply == Reply(200, "EVENT_RECEIVED") && dispatched == DispatchEvents(Flatten(d.entries))
    ensures d.objectKind != Some("page") ==> reply == Reply(404, "Not Found") && dispatched == []
  {
    if d.objectKind != Some("page") {
      return Reply(404, "Not Found"), [];
    }
    dispatched := [];
    var i := 0;
    while i < |d.entries|
      invariant 0 <= i <= |d.entries|
      invariant dispatched == DispatchEvents(Flatten(d.entries[..i]))
    {
      var ds := DeliverEntry(d.entries[i]);
      FlattenAppend(d.entries[..i], [d.entries[i]]);
      assert d.entries[..i + 1] == d.entries[..i] + [d.entries[i]];
      assert [d.entries[i]][1..] == [];
      assert Flatten([d.entries[i]]) == d.entries[i].messaging;
      DispatchEventsAppend(Flatten(d.entries[..i]), d.entries[i].messaging);
      dispatched := dispatched + ds;
      i := i + 1;
    }
    assert d.entries[..i] == d.entries;
    reply := Reply(200, "EVENT_RECEIVED");
  }

  /** `entry.messaging.forEach(...)`: the dispatches of one entry's events,
      in order. */
  method DeliverEntry(entry: PageEntry) returns (ds: seq<Dispatch>)
    ensures ds == DispatchEvents(entry.messaging)
  {
    var events := entry.messaging;
    ds := [];
    var j := 0;
    while j < |events|
      invariant 0 <= j <= |events|
      invariant ds == DispatchEvents(events[..j])
    {
      DispatchEventsAppend(events[..j], [events[j]]);
      assert events[..j + 1] == events[..j] + [events[j]];
      assert [events[j]][1..] == [];
      assert DispatchEvents([events[j]]) == DispatchOne(events[j]);
      var c := Classify(events[j]);
      if c.Some? {
        ds := ds + [c.value];
      }
      j := j + 1;
    }
    assert events[..j] == events;
  }

  /** What handling one dispatch does: a text message goes through the
      router (and possibly the model), a postback sends its one answer. */
  function Handle(d: Dispatch, keyPresent: bool, upstream: Upstream): (es: seq<Effect>)
    ensures d.ToPostback? ==> es == [Send(HandlePostback(d.sender, d.payload))]
    ensures d.ToMessage? ==> |es| >= 2 && es[0] == Send(TypingIndicator(d.sender, true))
    ensures d.ToMessage? ==>
              && Sent(es) == Route(d.sender, d.text, Respond(keyPresent, d.text, upstream).result)
              && ConsultCount(es) <= 1
  {
    match d
    case ToMessage(sender, text) =>
      HandleMessageFollowsRoute(sender, text, keyPresent, upstream);
      ConsultsAtMostOnce(sender, text, keyPresent, upstream);
      HandleMessage(sender, text, keyPresent, upstream)
    case ToPostback(sender, payload) => [Send(HandlePostback(sender, payload))]
  }

  /** Postbacks bypass the AI: handling one never consults the model. */
  lemma PostbackNeverConsults(sender: string, payload: Option<string>, keyPresent: bool, upstream: Upstream)
    ensures ConsultCount(Handle(ToPostback(sender, payload), keyPresent, upstream)) == 0
  {
    var es := Handle(ToPostback(sender, payload), keyPresent, upstream);
    assert es[1..] == [];
  }
}

=== FILE: wrappers.dfy ===
/** Stand-ins for JavaScript's `undefined` and thrown errors. */
module Wrappers {

  /** A value that may be absent: a missing field, an unset variable, an
      optional-chaining step that stopped. The three members make `:-`
      stop a decoder at the first absent field. */
  datatype Option<+T> = None | Some(value: T) {
    predicate IsFailure() { None? }

    function PropagateFailure<U>(): Option<U>
      requires None?
    {
      None
    }

    function Extract(): T
      requires Some?
    {
      value
    }
  }

  /** How an async call settles: resolved with a value, or rejected with
      the message of the error it throws. */
  datatype Result<+R, +E> = Success(value: R) | Failure(error: E)
}
